=== FILE: README.md ===
# Storefront cart and catalogue logic, in Dafny

This project models the state logic of a React storefront client (QKart).
The client shows a product catalogue, searches it, keeps a shopping cart
held by a backend, and has login and registration forms. The parts modelled
here are the pieces of that client with real logic in them:

- **Cart reconciliation** (`Cart` module, from `src/components/Cart.js`).
  `generateCartItemsFrom` is an inner join of the backend's raw cart
  (`productId`, `qty`) with the product catalogue, kept in cart order. The first catalogue
  match wins, lines of unknown products are dropped, and the product's `_id`
  is removed from each merged line. The module also has the two cart
  metrics (order total Σ qty × cost, item count Σ qty) and the `+`/`−`
  quantity controls.
- **Products page** (`Products` module, from `src/components/Products.js`).
  This covers:
  - the catalogue store and `performSearch`, with its URL choice and its
    handling of success, 404 and other errors;
  - the one-slot debounce timer of the search box, using logical time;
  - `isItemInCart`;
  - the ordered guard chain of `addToCart`: sign-in, then duplicate, then
    upsert;
  - the token-gated cart load when the page mounts.
- **Registration validator** (`Register` module, from
  `src/components/Register.js`). Five ordered checks, where the first
  failure raises exactly one warning. The payload drops `confirmPassword`.
- **Login** (`Login` module, from `src/components/Login.js`). Two ordered
  emptiness checks, the handling of the login reply, and `persistLogin` as
  an update of a `map<string, string>` storage.
- **Common**: the `Option`, `Reply` (the outcome of one HTTP call) and
  `Notice` (a snackbar) datatypes, the `SignedIn` predicate on storage, and
  `FirstViolation`. `FirstViolation` is the reference meaning of an ordered
  chain of validation checks, and both form validators are proved to follow
  it.

Network replies, the clock and the storage are inputs to pure functions.
Each asynchronous handler is modelled as one transition that receives the
reply it would await. A `TypeError` thrown inside an async handler rejects
the promise and changes no state, so where such a throw sits on a modelled
path it appears as "no change, no notice" beyond any notice raised before
the throw:

- `isItemInCart` on the initial `""` cart;
- `error.response.status` when there is no response;
- `.data` of a failed cart fetch, after `fetchCart` has already raised its
  error notice;
- joining a non-empty cart against a failed (`undefined`) listing at mount,
  which reads `.length` of `undefined`.

Falsy JavaScript states (`""`, `undefined`) are `None` for the cart and
`Blank` for the catalogue.

In these places the model follows the code, which a reader might not expect:

- with no cart, `generateCartItemsFrom` returns `undefined` (`None`), not an
  empty list;
- a 404 search stores `""` and a failed listing stores `undefined` (both
  `Blank`, which shows no products), not an empty list;
- the sign-in check of `addToCart` reads the stored token, while the request
  carries the `token` argument.

## Model

| member | source | states |
|---|---|---|
| Common.FirstViolation | src/components/Register.js:98-117 | an ordered check chain yields no message iff every check passes, and otherwise the message of a failing check all of whose predecessors pass |
| Cart.FirstMatch | src/components/Cart.js:55-61 | the inner loop stops at an index whose product has the id and before which no product has it; no index iff the catalogue lacks the id |
| Cart.Reconcile | src/components/Cart.js:53-63 | the joined cart is never longer than the raw cart |
| Cart.Merge | src/components/Cart.js:59-64 | a merged line shows the product's display fields and, reduced to `productId`/`qty`, is exactly the raw line |
| Cart.GenerateCartItems | src/components/Cart.js:50-51 | an absent cart gives an absent result (not a list), a present one a list no longer than it |
| Cart.GenerateCartItemsFrom | src/components/Cart.js:50-65 | the nested loop with first-match `break` computes exactly the functional join (absent stays absent) |
| Cart.ReconcileKeepsKnownLinesInOrder | src/components/Cart.js:53-63 | the displayed lines, reduced to `productId`/`qty`, are exactly the raw lines whose product is known, in cart order |
| Cart.ReconcileRoundTrip | src/components/Cart.js:59-64 | when every line's product is known, reducing the displayed cart to `productId`/`qty` gives back the raw cart; the `filter` drops nothing |
| Cart.ReconcileUsesFirstMatch | src/components/Cart.js:55-61 | every displayed line has a catalogue product and shows the display fields of the first one with its id |
| Cart.ReconcileIdMembership | src/components/Cart.js:53-63 | an id is displayed iff some raw line carries it and the catalogue knows it, so unknown products are dropped |
| Cart.ReconcileKeepsIdsDistinct | src/components/Cart.js:53-64 | a raw cart with distinct ids yields displayed lines with distinct ids |
| Cart.Accumulate | src/components/Cart.js:78-80 | the `forEach` accumulation loop equals the recursive sum |
| Cart.GetTotalCartValue | src/components/Cart.js:76-82 | the order total is Σ qty × cost, and 0 for an absent or empty cart |
| Cart.GetTotalItems | src/components/Cart.js:96-102 | the item count is Σ qty, and 0 for an absent or empty cart |
| Cart.MinusPressed | src/components/Cart.js:131 | the − control asks for one less of the same product, with the duplicate check off |
| Cart.PlusPressed | src/components/Cart.js:137 | the + control asks for one more of the same product, with the duplicate check off |
| Cart.MetricsAppend | src/components/Cart.js:76-102 | both metrics add up over a concatenation of carts |
| Cart.MetricsNonNegative | src/components/Cart.js:76-102 | with no negative quantity neither metric is negative |
| Cart.ReconciledCount | src/components/Cart.js:96-102 | the item count of the joined cart is the quantity sum of the raw lines with a known product |
| Products.SearchUrl | src/components/Products.js:147-150 | the URL is the endpoint followed by `/products` when the text is empty, and otherwise by `/products/search?value=` and then the text itself |
| Products.SearchUrlRoundTrip | src/components/Products.js:147-150 | reading the text back from the URL (empty for the listing URL, the part after the search path otherwise) gives the original text, so distinct texts give distinct URL strings |
| Products.PerformSearch | src/components/Products.js:146-168 | success replaces the catalogue; 404 stores the falsy `Blank` (not an empty list) without a notice; any other error status keeps it and raises the one error notice; no reply at all changes nothing and raises nothing; nothing else changes it |
| Products.OnInput | src/components/Products.js:182-191 | after a keystroke, whatever was pending before, nothing fires until one quiet window has passed, and then exactly the typed text is searched |
| Products.Tick | src/components/Products.js:186-188 | a pending timer fires its own text exactly when it is due, and then nothing is pending |
| Products.Run | src/components/Products.js:182-191 | after keystrokes exactly the last one's text is pending, due one window after it; at most one search per keystroke |
| Products.BurstSearchesNothing | src/components/Products.js:182-191 | keystrokes each within the window of the previous one fire no search |
| Products.BurstSearchesLastText | src/components/Products.js:182-191 | a burst followed by a quiet window triggers exactly one search, for the last text |
| Products.ProductIds | src/components/Products.js:260 | the id list has one entry per cart line, each that line's `productId` |
| Products.IsItemInCart | src/components/Products.js:259-269 | true exactly when some cart line's `productId` equals the id (`Cart.ShowsId`, the membership the join lemmas speak of) |
| Products.AddToCart | src/components/Products.js:307-354 | no token gives the login warning with no request and no change; then a duplicate with `preventDuplicate` gives the duplicate warning with no request and no change; with the duplicate check on and a falsy cart, `isItemInCart` throws: no request, no notice, no change; an omitted option skips that check; otherwise exactly one upsert of `{productId, qty}` is sent; success makes the cart the reconciled server cart; failure keeps it and raises the backend's message or the connectivity message |
| Products.OptionsOrDefault | src/components/Products.js:313 | an omitted options argument means duplicates are allowed; a given one is used as is |
| Products.AddToCartPressed | src/components/ProductCard.js:28 | signed out, the card button raises the login warning; signed in with a falsy cart, `isItemInCart` throws: no request, no notice, no change; signed in with a cart, it never re-adds a product already in it (duplicate warning, no request), and otherwise requests exactly one of it with the stored token |
| Products.QuantityControlsBypassDuplicateGuard | src/components/Cart.js:131-137 | signed in, the − and + controls always send `qty − 1` and `qty + 1`; the duplicate guard never stops them |
| Products.UpsertShowsServerCart | src/components/Products.js:337-339 | after a confirmed upsert an id is displayed iff the server cart has it and the catalogue knows it, so a line removed on the server is gone |
| Products.CartFetchNotice | src/components/Products.js:232-240 | a failed cart fetch raises exactly one error notice: the backend's message for a 400, the connectivity message otherwise; a successful one raises none |
| Products.Mount | src/components/Products.js:61-75 | the listing replaces the catalogue (a failure leaves it falsy); the cart is fetched iff signed in; a cart shown is the server cart joined against that listing; against a failed listing a non-empty server cart shows no cart and an empty one shows the empty cart; a failed fetch raises exactly the cart-fetch notice for its reply and shows no cart |
| Products.PageSearch | src/components/Products.js:157-162 | a search reply changes only the shown catalogue, never the cart |
| Products.PagePressAddAsWritten | src/components/Products.js:411 | as written, the card's add leaves listing and shown catalogue alone and changes the cart only on a confirmed upsert, to the server cart joined against the catalogue currently shown |
| Products.SearchHidesCartLines | src/components/Products.js:411 | as written, an add after a search reconciles against the search result and hides a server cart line whose product is listed |
| Products.PagePressAdd | src/components/Products.js:337-339 | the corrected add changes the cart only to the server cart joined against the mount-time listing |
| Products.PagePressAddShowsServerCart | src/components/Products.js:337-339 | with the correction, a confirmed add shows exactly the server lines whose product is in the listing, whatever was searched |
| Register.ValidateRegistration | src/components/Register.js:95-120 | each of the five warnings is raised exactly under its own condition, given that the earlier checks pass; success iff the username and password are at least 6 long and the password matches its confirmation; the payload keeps username and password |
| Register.RegistrationFollowsRules | src/components/Register.js:98-117 | the validator raises the message of the first failing check in source order, and accepts iff none fails |
| Login.ValidateLogin | src/components/Login.js:91-103 | an empty username gives the username warning; else an empty password gives the password warning; otherwise the same form is sent, whatever the fields' lengths: login has no length check |
| Login.LoginFollowsRules | src/components/Login.js:94-101 | the validator raises the message of the first failing emptiness check, username before password |
| Login.DecimalString | src/components/Login.js:134 | a stored number is a non-empty string of decimal digits with no leading zero |
| Login.DecimalRoundTrip | src/components/Login.js:134 | the stored balance string reads back as the balance |
| Login.PersistLogin | src/components/Login.js:128-135 | `token`, `username` and `balance` are set to the given values, and every other key is untouched |
| Login.SubmitLogin | src/components/Login.js:48-74 | an invalid form raises its warning and sends nothing; a successful reply persists exactly its token, username and balance and navigates home; a 400 raises the backend's message and another error the generic one, storage untouched; no reply at all changes nothing and raises nothing |
| Login.LoginSignsIn | src/components/Login.js:54-57 | a successful login with a non-empty token leaves the session signed in, which the cart gates on |

## Findings

| source | as written | input that shows it | evidently intended | confidence | as-written member | corrected member |
|---|---|---|---|---|---|---|
| src/components/Products.js:411 | product cards receive `productsInList = allProductsList`, the catalogue currently shown, and `addToCart` reconciles the server cart against it | listing [P1, P2], a search showing only [P2], server cart [P1×1, P2×1], "Add To Cart" on P2: the cart panel then shows only P2 | reconcile against the full product listing, so a search does not hide cart lines | medium, not executed | Products.PagePressAddAsWritten, Products.SearchHidesCartLines | Products.PagePressAdd, Products.PagePressAddShowsServerCart |

The cart panel's own quantity controls receive the same shown catalogue
(src/components/Products.js:415), so they are affected in the same way.

## Left out

- Rendering: JSX, layout, MUI components, `Header.js` and `App.js`. These
  are presentation and routing. Of `ProductCard.js` only its one call's
  arguments are modelled.
- Transport and I/O: axios is replaced by the `Reply` input, and notistack
  by `Notice` values. This includes the `closeSnackbar()` call that follows
  the search error notice. `localStorage` reads and writes become a `map`.
  `setTimeout`/`clearTimeout` become logical deadlines. The endpoint
  (`config.endpoint`, built from an IP file that is not part of this model)
  is a parameter.
- The mobile search field (src/components/Products.js:381) passes no timer
  handle, so it does not cancel earlier timers. This is a known divergence
  and is not modelled.
- Concurrency: replies are applied in arrival order. Each modelled
  transition is one arrival, and the race between in-flight requests is not
  modelled.
- `performSearch` with a 2xx status other than 200 stores the whole response
  object. `Ok` is taken to mean status 200.
- The `loader` and `isLoading` spinner flags, the `handleInput` form state,
  the navigation after registration, and `register`'s reply handling
  (src/components/Register.js:47-69). Only the validator and its payload
  are modelled there.
- `fetchCart`'s `if (!token) return;` is unreachable behind the mount
  effect's token check, and is not modelled separately.
- Cart.GetTotalCartValue, Cart.GetTotalItems: the initial `""` cart state, for which `forEach` would throw, is not distinguished from `undefined` and yields 0; the cart component returns before computing either metric when the cart has no items (src/components/Cart.js:174).
- The search text is placed in the URL without percent-encoding
  (src/components/Products.js:150), and what the browser and backend make of
  characters such as `#`, `&` or `+` in it is not modelled: the model speaks
  of URL strings, not of the requests they become.
- Crash paths off the modelled paths, for example a cart reply whose body is
  not a list.
- Costs and the balance are naturals and quantities are integers. Floating
  point is not modelled.
- String lengths are counted in `char`s. JavaScript's `length` counts UTF-16
  code units, and the two differ only for characters outside the Basic
  Multilingual Plane.

=== FILE: cart.dfy ===
/** The cart reconciler of the storefront: the join of the backend's raw cart
    (product id and quantity pairs) against the product catalogue, and the two
    aggregates the cart panel shows (order total and item count). */
module Cart {
  import opened Common

  /** One catalogue entry as the backend lists it. `id` is the `_id` field. */
  datatype Product = Product(
    name: string,
    category: string,
    cost: nat,
    rating: nat,
    image: string,
    id: string)

  /** One line of the backend's cart. */
  datatype RawCartLine = RawCartLine(productId: string, qty: int)

  /** One line of the displayed cart: the product's display fields together
      with the cart line's `productId` and `qty`. It has no `_id` field. */
  datatype DisplayLine = DisplayLine(
    name: string,
    category: string,
    cost: nat,
    rating: nat,
    image: string,
    productId: string,
    qty: int)

  /** The cart state a component holds: `None` stands for the falsy values
      (the initial `""`, or `undefined` when there was no cart to join). */
  type CartState = Option<seq<DisplayLine>>

  /** `{ ...product, ...line }` followed by `delete item._id`: the product's
      display fields, and the cart line's own `productId` and `qty`. */
  function Merge(p: Product, line: RawCartLine): (d: DisplayLine)
    ensures Shows(d, p) && Strip(d) == line
  {
    DisplayLine(p.name, p.category, p.cost, p.rating, p.image, line.productId, line.qty)
  }

  /** The display line shows exactly the product's display fields. */
  predicate Shows(d: DisplayLine, p: Product)
  {
    d.name == p.name && d.category == p.category && d.cost == p.cost
    && d.rating == p.rating && d.image == p.image
  }

  /** The line forgotten down to the raw cart fields it carries. */
  function Strip(d: DisplayLine): RawCartLine
  {
    RawCartLine(d.productId, d.qty)
  }

  function StripAll(lines: seq<DisplayLine>): seq<RawCartLine>
  {
    seq(|lines|, k requires 0 <= k < |lines| => Strip(lines[k]))
  }

  predicate InCatalogue(products: seq<Product>, id: string)
  {
    exists j :: 0 <= j < |products| && products[j].id == id
  }

  /** The index the inner loop of the join stops at: the first product whose
      `_id` equals `id`. */
  function FirstMatch(products: seq<Product>, id: string): (r: Option<nat>)
    ensures r.None? <==> !InCatalogue(products, id)
    ensures r.Some? ==>
      r.value < |products| && products[r.value].id == id
      && forall j :: 0 <= j < r.value ==> products[j].id != id
  {
    if |products| == 0 then None
    else if products[0].id == id then Some(0)
    else
      match FirstMatch(products[1..], id)
      case None =>
        assert forall j :: 1 <= j < |products| ==> products[j] == products[1..][j - 1];
        None
      case Some(k) => Some(k + 1)
  }

  /** What one raw line contributes to the displayed cart. */
  function JoinLine(line: RawCartLine, products: seq<Product>): seq<DisplayLine>
  {
    match FirstMatch(products, line.productId)
    case None => []
    case Some(j) => [Merge(products[j], line)]
  }

  /** The reconciled cart: the contributions of the raw lines, in cart order. */
  function Reconcile(cart: seq<RawCartLine>, products: seq<Product>): (r: seq<DisplayLine>)
    ensures |r| <= |cart|
  {
    if |cart| == 0 then []
    else Reconcile(cart[..|cart| - 1], products) + JoinLine(cart[|cart| - 1], products)
  }

  /** The raw lines whose product is in the catalogue, in cart order. */
  function KnownLines(cart: seq<RawCartLine>, products: seq<Product>): seq<RawCartLine>
  {
    if |cart| == 0 then []
    else
      KnownLines(cart[..|cart| - 1], products)
      + (if InCatalogue(products, cart[|cart| - 1].productId) then [cart[|cart| - 1]] else [])
  }

  /** `generateCartItemsFrom` as a value: no cart gives no result. */
  function GenerateCartItems(cart: Option<seq<RawCartLine>>, products: seq<Product>): (r: CartState)
    ensures r.None? <==> cart.None?
    ensures r.Some? ==> |r.value| <= |cart.value|
  {
    match cart
    case None => None
    case Some(lines) => Some(Reconcile(lines, products))
  }

  lemma ReconcileStep(cart: seq<RawCartLine>, i: nat, products: seq<Product>)
    requires i < |cart|
    ensures Reconcile(cart[..i + 1], products) == Reconcile(cart[..i], products) + JoinLine(cart[i], products)
  {
    assert cart[..i + 1][..i] == cart[..i];
  }

  /** `generateCartItemsFrom`: the nested loop in which the first catalogue
      match of each cart line is merged and the search stops. */
  method GenerateCartItemsFrom(cartData: Option<seq<RawCartLine>>, productsData: seq<Product>)
    returns (r: CartState)
    ensures r == GenerateCartItems(cartData, productsData)
  {
    if cartData.None? {
      return None;
    }
    var cart := cartData.value;
    var cartArray: seq<DisplayLine> := [];
    var i := 0;
    while i < |cart|
      invariant 0 <= i <= |cart|
      invariant cartArray == Reconcile(cart[..i], productsData)
    {
      ReconcileStep(cart, i, productsData);
      var j := 0;
      ghost var matched := false;
      while j < |productsData|
        invariant 0 <= j <= |productsData|
        invariant forall k :: 0 <= k < j ==> productsData[k].id != cart[i].productId
        invariant !matched && cartArray == Reconcile(cart[..i], productsData)
      {
        if productsData[j].id == cart[i].productId {
          assert FirstMatch(productsData, cart[i].productId) == Some(j);
          cartArray := cartArray + [Merge(productsData[j], cart[i])];
          matched := true;
          break;
        }
        j := j + 1;
      }
      if !matched {
        assert FirstMatch(productsData, cart[i].productId).None?;
      }
      i := i + 1;
    }
    assert cart[..|cart|] == cart;
    r := Some(cartArray);
  }

  /** Forgetting the display fields of the reconciled cart gives back exactly
      the raw lines whose product is known, in cart order. */
  lemma {:induction false} ReconcileKeepsKnownLinesInOrder(cart: seq<RawCartLine>, products: seq<Product>)
    ensures StripAll(Reconcile(cart, products)) == KnownLines(cart, products)
    decreases |cart|
  {
    if |cart| > 0 {
      var init := cart[..|cart| - 1];
      ReconcileKeepsKnownLinesInOrder(init, products);
      var a := Reconcile(init, products);
      var b := JoinLine(cart[|cart| - 1], products);
      assert StripAll(a + b) == StripAll(a) + StripAll(b);
    }
  }

  /** When every cart line names a catalogue product, reconciliation loses
      nothing: stripping the display fields is the identity on the cart. */
  lemma {:induction false} ReconcileRoundTrip(cart: seq<RawCartLine>, products: seq<Product>)
    requires forall i :: 0 <= i < |cart| ==> InCatalogue(products, cart[i].productId)
    ensures StripAll(Reconcile(cart, products)) == cart
  {
    ReconcileKeepsKnownLinesInOrder(cart, products);
    AllKnown(cart, products);
  }

  lemma {:induction false} AllKnown(cart: seq<RawCartLine>, products: seq<Product>)
    requires forall i :: 0 <= i < |cart| ==> InCatalogue(products, cart[i].productId)
    ensures KnownLines(cart, products) == cart
    decreases |cart|
  {
    if |cart| > 0 {
      AllKnown(cart[..|cart| - 1], products);
      assert cart[..|cart| - 1] + [cart[|cart| - 1]] == cart;
    }
  }

  /** Every displayed line shows the FIRST catalogue product with its id, and
      so no displayed line is an orphan. */
  lemma {:induction false} ReconcileUsesFirstMatch(cart: seq<RawCartLine>, products: seq<Product>)
    ensures forall k :: 0 <= k < |Reconcile(cart, products)| ==>
      var d := Reconcile(cart, products)[k];
      FirstMatch(products, d.productId).Some?
      && Shows(d, products[FirstMatch(products, d.productId).value])
    decreases |cart|
  {
    if |cart| > 0 {
      ReconcileUsesFirstMatch(cart[..|cart| - 1], products);
    }
  }

  /** Some displayed line carries the product id. */
  predicate ShowsId(lines: seq<DisplayLine>, id: string)
  {
    exists k :: 0 <= k < |lines| && lines[k].productId == id
  }

  /** Some raw cart line carries the product id. */
  predicate CartHasId(cart: seq<RawCartLine>, id: string)
  {
    exists i :: 0 <= i < |cart| && cart[i].productId == id
  }

  /** An id appears in the displayed cart exactly when some raw line carries
      it and the catalogue knows it: lines of unknown products are dropped. */
  lemma ReconcileIdMembership(cart: seq<RawCartLine>, products: seq<Product>, id: string)
    ensures ShowsId(Reconcile(cart, products), id) <==> InCatalogue(products, id) && CartHasId(cart, id)
  {
    var r := Reconcile(cart, products);
    ReconcileKeepsKnownLinesInOrder(cart, products);
    KnownLinesMembership(cart, products, id);
    if ShowsId(r, id) {
      var k :| 0 <= k < |r| && r[k].productId == id;
      assert StripAll(r)[k].productId == id;
    }
    if CartHasId(StripAll(r), id) {
      var k :| 0 <= k < |StripAll(r)| && StripAll(r)[k].productId == id;
      assert r[k].productId == id;
    }
  }

  lemma {:induction false} KnownLinesMembership(cart: seq<RawCartLine>, products: seq<Product>, id: string)
    ensures CartHasId(KnownLines(cart, products), id) <==> InCatalogue(products, id) && CartHasId(cart, id)
    decreases |cart|
  {
    if |cart| > 0 {
      var init := cart[..|cart| - 1];
      var last := cart[|cart| - 1];
      KnownLinesMembership(init, products, id);
      var a := KnownLines(init, products);
      var b := if InCatalogue(products, last.productId) then [last] else [];
      var r := KnownLines(cart, products);
      assert r == a + b;
      if CartHasId(r, id) {
        var k :| 0 <= k < |r| && r[k].productId == id;
        if k < |a| {
          assert a[k] == r[k];
          assert CartHasId(a, id);
          var i :| 0 <= i < |init| && init[i].productId == id;
          assert cart[i] == init[i];
        } else {
          assert b[k - |a|] == r[k];
        }
      }
      if InCatalogue(products, id) && CartHasId(cart, id) {
        var i :| 0 <= i < |cart| && cart[i].productId == id;
        if i < |init| {
          assert init[i] == cart[i];
          assert CartHasId(init, id);
          var k :| 0 <= k < |a| && a[k].productId == id;
          assert r[k] == a[k];
        } else {
          assert r[|a|] == last;
        }
      }
    }
  }

  predicate DistinctIds(lines: seq<RawCartLine>)
  {
    forall i, j :: 0 <= i < j < |lines| ==> lines[i].productId != lines[j].productId
  }

  /** The client never invents a duplicate: a cart with distinct product ids
      reconciles to display lines with distinct product ids. */
  lemma ReconcileKeepsIdsDistinct(cart: seq<RawCartLine>, products: seq<Product>)
    requires DistinctIds(cart)
    ensures forall i, j :: 0 <= i < j < |Reconcile(cart, products)| ==>
      Reconcile(cart, products)[i].productId != Reconcile(cart, products)[j].productId
  {
    ReconcileKeepsKnownLinesInOrder(cart, products);
    KnownLinesDistinct(cart, products);
    var r := Reconcile(cart, products);
    assert forall k :: 0 <= k < |r| ==> r[k].productId == StripAll(r)[k].productId;
  }

  lemma {:induction false} KnownLinesDistinct(cart: seq<RawCartLine>, products: seq<Product>)
    requires DistinctIds(cart)
    ensures DistinctIds(KnownLines(cart, products))
    ensures forall k :: 0 <= k < |KnownLines(cart, products)| ==>
      exists i :: 0 <= i < |cart| && cart[i] == KnownLines(cart, products)[k]
    decreases |cart|
  {
    if |cart| > 0 {
      var init := cart[..|cart| - 1];
      assert forall i :: 0 <= i < |init| ==> init[i] == cart[i];
      KnownLinesDistinct(init, products);
      var a := KnownLines(init, products);
      var last := cart[|cart| - 1];
      assert forall k :: 0 <= k < |a| ==> a[k].productId != last.productId by {
        forall k | 0 <= k < |a|
          ensures a[k].productId != last.productId
        {
          var i :| 0 <= i < |init| && init[i] == a[k];
        }
      }
    }
  }

  // ---------------------------------------------------------------------------
  // Cart metrics

  /** Sum of `f` over the lines: the `forEach` accumulation of both metrics. */
  function SumOf(lines: seq<DisplayLine>, f: DisplayLine -> int): int
  {
    if |lines| == 0 then 0 else f(lines[0]) + SumOf(lines[1..], f)
  }

  function LineValue(d: DisplayLine): int { d.qty * d.cost }

  function LineCount(d: DisplayLine): int { d.qty }

  /** Σ qty × cost. */
  function CartValue(lines: seq<DisplayLine>): int { SumOf(lines, LineValue) }

  /** Σ qty. */
  function CartCount(lines: seq<DisplayLine>): int { SumOf(lines, LineCount) }

  /** The `items = []` default parameter: `None` here is `undefined`, which
      the default replaces with the empty list. (The initial `""` cart state
      would make `forEach` throw; the cart component's empty-cart guard
      returns before either metric is computed for it.) */
  function OrEmpty(items: CartState): seq<DisplayLine>
  {
    match items
    case None => []
    case Some(lines) => lines
  }

  lemma {:induction false} SumOfAppend(a: seq<DisplayLine>, b: seq<DisplayLine>, f: DisplayLine -> int)
    ensures SumOf(a + b, f) == SumOf(a, f) + SumOf(b, f)
    decreases |a|
  {
    if |a| > 0 {
      assert (a + b)[1..] == a[1..] + b;
      SumOfAppend(a[1..], b, f);
    } else {
      assert a + b == b;
    }
  }

  /** The accumulation loop shared by both metrics. */
  method Accumulate(lines: seq<DisplayLine>, f: DisplayLine -> int) returns (total: int)
    ensures total == SumOf(lines, f)
  {
    total := 0;
    var i := 0;
    while i < |lines|
      invariant 0 <= i <= |lines|
      invariant total == SumOf(lines[..i], f)
    {
      assert lines[..i + 1] == lines[..i] + [lines[i]];
      SumOfAppend(lines[..i], [lines[i]], f);
      total := total + f(lines[i]);
      i := i + 1;
    }
    assert lines[..|lines|] == lines;
  }

  /** `getTotalCartValue`: the order total, 0 for an absent or empty cart. */
  method GetTotalCartValue(items: CartState) returns (total: int)
    ensures total == CartValue(OrEmpty(items))
    ensures OrEmpty(items) == [] ==> total == 0
  {
    total := Accumulate(OrEmpty(items), LineValue);
  }

  /** `getTotalItems`: the number of items, 0 for an absent or empty cart. */
  method GetTotalItems(items: CartState) returns (count: int)
    ensures count == CartCount(OrEmpty(items))
    ensures OrEmpty(items) == [] ==> count == 0
  {
    count := Accumulate(OrEmpty(items), LineCount);
  }

  /** With no negative quantity, neither metric is negative. */
  lemma {:induction false} MetricsNonNegative(lines: seq<DisplayLine>)
    requires forall k :: 0 <= k < |lines| ==> lines[k].qty >= 0
    ensures CartValue(lines) >= 0 && CartCount(lines) >= 0
    decreases |lines|
  {
    if |lines| > 0 {
      MetricsNonNegative(lines[1..]);
    }
  }

  /** Both metrics split over a concatenation of carts. */
  lemma MetricsAppend(a: seq<DisplayLine>, b: seq<DisplayLine>)
    ensures CartValue(a + b) == CartValue(a) + CartValue(b)
    ensures CartCount(a + b) == CartCount(a) + CartCount(b)
  {
    SumOfAppend(a, b, LineValue);
    SumOfAppend(a, b, LineCount);
  }

  /** Reconciliation keeps each known line's quantity, so the displayed item
      count is the quantity sum of the known raw lines. */
  lemma {:induction false} ReconciledCount(cart: seq<RawCartLine>, products: seq<Product>)
    ensures CartCount(Reconcile(cart, products)) == RawCount(KnownLines(cart, products))
    decreases |cart|
  {
    if |cart| > 0 {
      var init := cart[..|cart| - 1];
      ReconciledCount(init, products);
      MetricsAppend(Reconcile(init, products), JoinLine(cart[|cart| - 1], products));
      var last := cart[|cart| - 1];
      var tail := if InCatalogue(products, last.productId) then [last] else [];
      RawCountAppend(KnownLines(init, products), tail);
      var b := JoinLine(last, products);
      assert Reconcile(cart, products) == Reconcile(init, products) + b;
      assert KnownLines(cart, products) == KnownLines(init, products) + tail;
      if InCatalogue(products, last.productId) {
        assert b == [Merge(products[FirstMatch(products, last.productId).value], last)];
        assert b[1..] == [] && tail[1..] == [];
        assert SumOf(b[1..], LineCount) == 0;
        assert LineCount(b[0]) == last.qty;
        assert CartCount(b) == LineCount(b[0]) + SumOf(b[1..], LineCount);
        assert RawCount(tail) == last.qty;
      } else {
        assert b == [];
      }
    }
  }

  function RawCount(cart: seq<RawCartLine>): int
  {
    if |cart| == 0 then 0 else cart[0].qty + RawCount(cart[1..])
  }

  lemma {:induction false} RawCountAppend(a: seq<RawCartLine>, b: seq<RawCartLine>)
    ensures RawCount(a + b) == RawCount(a) + RawCount(b)
    decreases |a|
  {
    if |a| > 0 {
      assert (a + b)[1..] == a[1..] + b;
      RawCountAppend(a[1..], b);
    } else {
      assert a + b == b;
    }
  }

  // ---------------------------------------------------------------------------
  // The + and - controls of one cart line

  /** The arguments one quantity control passes to the cart handler. */
  datatype QuantityRequest = QuantityRequest(productId: string, qty: int, options: AddOptions)

  /** The - control of `ItemQuantity`: one less, duplicates allowed. */
  function MinusPressed(productId: string, value: int): (r: QuantityRequest)
    ensures r.productId == productId && r.qty + 1 == value && !r.options.preventDuplicate
  {
    QuantityRequest(productId, value - 1, AddOptions(false))
  }

  /** The + control of `ItemQuantity`: one more, duplicates allowed. */
  function PlusPressed(productId: string, value: int): (r: QuantityRequest)
    ensures r.productId == productId && r.qty - 1 == value && !r.options.preventDuplicate
  {
    QuantityRequest(productId, value + 1, AddOptions(false))
  }
}

=== FILE: common.dfy ===
/** Shared vocabulary of the storefront client: optional values, the outcome
    of one backend call, and the user-facing notifications (snackbars). */
module Common {

  /** A value that may be absent (JavaScript `undefined`, `null` or a falsy
      placeholder). */
  datatype Option<+T> = None | Some(value: T)

  /** What one HTTP call through the transport came back with: a 2xx reply
      carrying its JSON body, an error reply carrying its status and the
      `message` field of its body, or no reply at all (the backend could not
      be reached). */
  datatype Reply<+T> =
    | Ok(body: T)
    | HttpError(status: int, message: string)
    | NoResponse

  /** The `variant` option of a snackbar. */
  datatype Severity = Success | Warning | Error

  /** One snackbar the client enqueues. */
  datatype Notice = Notice(message: string, severity: Severity)

  /** The browser's `localStorage`: string keys to string values. */
  type Storage = map<string, string>

  /** `localStorage.getItem('token')` is truthy: the key is present and its
      value is not the empty string. */
  predicate SignedIn(storage: Storage)
  {
    "token" in storage && storage["token"] != ""
  }

  /** The third argument of `addToCart`; when it is omitted the default
      `{ preventDuplicate: false }` applies. */
  datatype AddOptions = AddOptions(preventDuplicate: bool)

  /** The result of a form validator: either the one warning it raised, or
      the payload it hands to the backend call. */
  datatype Validation<+P> = Rejected(notice: Notice) | Accepted(payload: P)

  /** One check of an ordered validator: whether it passes and the warning
      it raises when it does not. */
  datatype Rule = Rule(passes: bool, message: string)

  /** The message of the first failing rule, if any: the reference meaning
      of a chain of `if (...) { warn; return false; }` checks. */
  function FirstViolation(rules: seq<Rule>): (r: Option<string>)
    ensures r.None? <==> forall i :: 0 <= i < |rules| ==> rules[i].passes
    ensures r.Some? ==>
      exists i :: 0 <= i < |rules| && !rules[i].passes && rules[i].message == r.value
                  && forall j :: 0 <= j < i ==> rules[j].passes
  {
    if |rules| == 0 then None
    else if !rules[0].passes then Some(rules[0].message)
    else
      var rest := FirstViolation(rules[1..]);
      assert forall i :: 1 <= i < |rules| ==> rules[i] == rules[1..][i - 1];
      rest
  }

  /** The first failing rule decides the outcome, whatever follows it. */
  lemma FirstViolationAt(rules: seq<Rule>, k: nat)
    requires k < |rules| && !rules[k].passes
    requires forall j :: 0 <= j < k ==> rules[j].passes
    ensures FirstViolation(rules) == Some(rules[k].message)
  {
  }
}

=== FILE: login.dfy ===
/** The login form: its validator, the handling of the login reply, and the
    session it persists in the browser's key/value storage. */
module Login {
  import opened Common

  datatype LoginForm = LoginForm(username: string, password: string)

  /** The body of a successful `POST /auth/login`. */
  datatype LoginBody = LoginBody(token: string, username: string, balance: nat)

  const UsernameRequired := "Username is a required field"
  const PasswordRequired := "Password is a required field"
  const LoggedIn := Notice("Logged in successfully", Success)
  const LoginUnreachable := "Something went wrong. Check that the backend is running, reachable and returns valid JSON."

  /** The checks of `validateInput`, in the order it makes them. */
  function LoginRules(f: LoginForm): seq<Rule>
  {
    [ Rule(f.username != "", UsernameRequired),
      Rule(f.password != "", PasswordRequired) ]
  }

  /** `validateInput` of the login form: two emptiness checks, username
      first; the form itself is what `login` receives. */
  function ValidateLogin(f: LoginForm): (r: Validation<LoginForm>)
    ensures r == Rejected(Notice(UsernameRequired, Warning)) <==> f.username == ""
    ensures r == Rejected(Notice(PasswordRequired, Warning)) <==> f.username != "" && f.password == ""
    ensures r.Accepted? <==> f.username != "" && f.password != ""
    ensures r.Accepted? ==> r.payload == f
  {
    if f.username == "" then Rejected(Notice(UsernameRequired, Warning))
    else if f.password == "" then Rejected(Notice(PasswordRequired, Warning))
    else Accepted(f)
  }

  /** The validator is the first-failure reading of its rule list. */
  lemma LoginFollowsRules(f: LoginForm)
    ensures match FirstViolation(LoginRules(f))
      case Some(m) => ValidateLogin(f) == Rejected(Notice(m, Warning))
      case None => ValidateLogin(f) == Accepted(f)
  {
    var rules := LoginRules(f);
    if f.username == "" {
      FirstViolationAt(rules, 0);
    } else if f.password == "" {
      FirstViolationAt(rules, 1);
    } else {
      assert forall i :: 0 <= i < |rules| ==> rules[i].passes;
    }
  }

  // ---------------------------------------------------------------------------
  // Number to string coercion of `localStorage.setItem`

  function DigitChar(d: nat): char
    requires d < 10
  {
    "0123456789"[d]
  }

  function DigitValue(c: char): nat
  {
    if '0' <= c <= '9' then (c - '0') as nat else 0
  }

  /** The decimal rendering `String(n)` of a non-negative integer. */
  function DecimalString(n: nat): (s: string)
    ensures |s| >= 1
    ensures forall i :: 0 <= i < |s| ==> '0' <= s[i] <= '9'
    ensures n > 0 ==> s[0] != '0'
    decreases n
  {
    if n < 10 then [DigitChar(n)] else DecimalString(n / 10) + [DigitChar(n % 10)]
  }

  /** Reads a decimal string back as a number. */
  function ParseDecimal(s: string): nat
  {
    if |s| == 0 then 0 else 10 * ParseDecimal(s[..|s| - 1]) + DigitValue(s[|s| - 1])
  }

  /** The stored balance reads back as the balance that was stored. */
  lemma {:induction false} DecimalRoundTrip(n: nat)
    ensures ParseDecimal(DecimalString(n)) == n
    decreases n
  {
    var s := DecimalString(n);
    if n < 10 {
      assert s[..0] == [];
    } else {
      DecimalRoundTrip(n / 10);
      assert s[..|s| - 1] == DecimalString(n / 10);
    }
  }

  // ---------------------------------------------------------------------------
  // Session persistence

  /** `persistLogin`: three `setItem` calls. */
  function PersistLogin(storage: Storage, token: string, username: string, balance: nat): (r: Storage)
    ensures r.Keys == storage.Keys + {"token", "username", "balance"}
    ensures r["token"] == token && r["username"] == username
    ensures r["balance"] == DecimalString(balance)
    ensures forall k :: k in storage && k != "token" && k != "username" && k != "balance" ==> r[k] == storage[k]
  {
    storage["token" := token]["username" := username]["balance" := DecimalString(balance)]
  }

  /** The outcome of one login attempt: the storage afterwards, whether the
      login request was sent, the snackbar raised, and whether the page
      navigated home. */
  datatype LoginResult = LoginResult(storage: Storage, requested: bool, notice: Option<Notice>, navigatedHome: bool)

  /** A click on the login button: validation, then `login` with the reply
      the backend gives. A reply with no response makes the error handler
      throw before it raises anything. */
  function SubmitLogin(storage: Storage, f: LoginForm, reply: Reply<LoginBody>): (r: LoginResult)
    ensures !ValidateLogin(f).Accepted? ==> r == LoginResult(storage, false, Some(ValidateLogin(f).notice), false)
    ensures r.requested <==> f.username != "" && f.password != ""
    ensures r.storage != storage ==> r.requested && reply.Ok?
    ensures r.requested && reply.Ok? ==>
      r.storage == PersistLogin(storage, reply.body.token, reply.body.username, reply.body.balance)
      && r.notice == Some(LoggedIn) && r.navigatedHome
    ensures r.requested && reply.NoResponse? ==> r == LoginResult(storage, true, None, false)
    ensures r.requested && reply.HttpError? ==>
      r.storage == storage && !r.navigatedHome
      && r.notice == Some(if reply.status == 400 then Notice(reply.message, Error) else Notice(LoginUnreachable, Error))
  {
    match ValidateLogin(f)
    case Rejected(n) => LoginResult(storage, false, Some(n), false)
    case Accepted(_) =>
      match reply
      case Ok(body) => LoginResult(PersistLogin(storage, body.token, body.username, body.balance), true, Some(LoggedIn), true)
      case HttpError(status, message) =>
        if status == 400 then LoginResult(storage, true, Some(Notice(message, Error)), false)
        else LoginResult(storage, true, Some(Notice(LoginUnreachable, Error)), false)
      case NoResponse => LoginResult(storage, true, None, false)
  }

  /** A successful login with a non-empty token signs the session in, which
      is what the cart mutation and the cart load are gated on. */
  lemma LoginSignsIn(storage: Storage, f: LoginForm, body: LoginBody)
    requires f.username != "" && f.password != "" && body.token != ""
    ensures SignedIn(SubmitLogin(storage, f, Ok(body)).storage)
  {
  }
}

=== FILE: products.dfy ===
/** The products page's state logic: the catalogue store and its search
    refresh, the debounced search box, the cart mutation policy of
    `addToCart`, and the token-gated cart load when the page mounts. */
module Products {
  import opened Common
  import opened Cart

  // ---------------------------------------------------------------------------
  // Catalogue store

  /** The `allProductsList` state: a listing, or a falsy value (the `""` a
      "not found" search stores, or the `undefined` a failed listing returns). */
  datatype Catalogue = Listing(products: seq<Product>) | Blank

  /** The products a catalogue state shows; a falsy state shows none. */
  function Shown(c: Catalogue): seq<Product>
  {
    match c
    case Listing(ps) => ps
    case Blank => []
  }

  const SearchFailed := Notice("Something went wrong. Check the backend console for more details", Error)

  const ListPath := "/products"
  const SearchPath := "/products/search?value="

  /** The URL `performSearch` requests: the full listing for empty text, the
      search endpoint with the text appended otherwise. */
  function SearchUrl(endpoint: string, text: string): (url: string)
    ensures |endpoint| <= |url| && url[..|endpoint|] == endpoint
    ensures text == "" ==> url[|endpoint|..] == ListPath
    ensures text != "" ==> |endpoint| + |SearchPath| < |url|
                           && url[|endpoint|..|endpoint| + |SearchPath|] == SearchPath
                           && url[|endpoint| + |SearchPath|..] == text
  {
    if text == "" then endpoint + ListPath else endpoint + SearchPath + text
  }

  /** Reads the search text back out of a URL: the text after the endpoint's
      search path, the empty text for the endpoint's listing URL, and `None`
      for any other URL. */
  function QueryOf(endpoint: string, url: string): Option<string>
  {
    if url == endpoint + ListPath then Some("")
    else if |endpoint| + |SearchPath| < |url| && url[..|endpoint| + |SearchPath|] == endpoint + SearchPath
    then Some(url[|endpoint| + |SearchPath|..])
    else None
  }

  /** No two search texts share a URL: the text is recoverable from it. */
  lemma SearchUrlRoundTrip(endpoint: string, text: string)
    ensures QueryOf(endpoint, SearchUrl(endpoint, text)) == Some(text)
  {
  }

  datatype SearchResult = SearchResult(url: string, catalogue: Catalogue, notice: Option<Notice>)

  /** `performSearch` as a transition of the catalogue store, given what the
      GET request came back with. A reply with no response makes the handler
      throw before it changes anything. */
  function PerformSearch(endpoint: string, catalogue: Catalogue, text: string, reply: Reply<seq<Product>>)
    : (r: SearchResult)
    ensures r.url == SearchUrl(endpoint, text)
    ensures reply.Ok? ==> r.catalogue == Listing(reply.body) && r.notice == None
    ensures reply.HttpError? && reply.status == 404 ==> r.catalogue == Blank && r.notice == None
    ensures r.notice.Some? <==> reply.HttpError? && reply.status != 404
    ensures r.notice.Some? ==> r.notice.value == SearchFailed
    ensures r.catalogue != catalogue ==> reply.Ok? || (reply.HttpError? && reply.status == 404)
  {
    var url := SearchUrl(endpoint, text);
    match reply
    case Ok(list) => SearchResult(url, Listing(list), None)
    case HttpError(status, _) =>
      if status == 404 then SearchResult(url, Blank, None)
      else SearchResult(url, catalogue, Some(SearchFailed))
    case NoResponse => SearchResult(url, catalogue, None)
  }

  // ---------------------------------------------------------------------------
  // Debounced search box

  /** The quiescence window of `debounceSearch`, in milliseconds. */
  const QuietWindow := 500

  /** The one timer the search box may have pending: when it fires and the
      text it will search for. */
  datatype Pending = Pending(deadline: int, text: string)

  /** The `debounceTimeout` state; `None` is the initial `0`. */
  datatype Throttle = Throttle(pending: Option<Pending>)

  /** A change event of the search box at a logical time. */
  datatype Keystroke = Keystroke(time: int, text: string)

  /** `debounceSearch`: cancel whatever is pending and schedule one search. */
  function OnInput(s: Throttle, now: int, text: string): (r: Throttle)
    ensures Tick(r, now + QuietWindow - 1).search == None
    ensures Tick(r, now + QuietWindow).search == Some(text)
  {
    Throttle(Some(Pending(now + QuietWindow, text)))
  }

  datatype Fired = Fired(throttle: Throttle, search: Option<string>)

  /** Lets logical time reach `now`: a pending timer that is due fires its
      search and is gone; otherwise nothing happens. */
  function Tick(s: Throttle, now: int): (r: Fired)
    ensures r.search.Some? <==> s.pending.Some? && s.pending.value.deadline <= now
    ensures r.search.Some? ==> r.search.value == s.pending.value.text && r.throttle.pending == None
    ensures r.search.None? ==> r.throttle == s
  {
    match s.pending
    case Some(p) => if p.deadline <= now then Fired(Throttle(None), Some(p.text)) else Fired(s, None)
    case None => Fired(s, None)
  }

  datatype RunResult = RunResult(throttle: Throttle, searches: seq<string>)

  /** Replays keystrokes in order: time advances to each keystroke (a due
      timer fires first), then the keystroke is handled. */
  function Run(s: Throttle, keys: seq<Keystroke>): (r: RunResult)
    ensures keys != [] ==> r.throttle.pending == Some(Pending(keys[|keys| - 1].time + QuietWindow, keys[|keys| - 1].text))
    ensures |r.searches| <= |keys|
    decreases |keys|
  {
    if |keys| == 0 then RunResult(s, [])
    else
      var f := Tick(s, keys[0].time);
      var rest := Run(OnInput(f.throttle, keys[0].time, keys[0].text), keys[1..]);
      var now := match f.search case Some(t) => [t] case None => [];
      RunResult(rest.throttle, now + rest.searches)
  }

  /** Every keystroke comes before the previous one's timer is due. */
  predicate Burst(keys: seq<Keystroke>)
  {
    forall i :: 0 < i < |keys| ==> keys[i].time < keys[i - 1].time + QuietWindow
  }

  /** Nothing is pending, or what is pending is not due before `t`. */
  predicate QuietBefore(s: Throttle, t: int)
  {
    s.pending.None? || t < s.pending.value.deadline
  }

  /** During a burst no search fires, and afterwards exactly the last text is
      pending. */
  lemma {:induction false} BurstSearchesNothing(s: Throttle, keys: seq<Keystroke>)
    requires keys != [] && Burst(keys) && QuietBefore(s, keys[0].time)
    ensures Run(s, keys).searches == []
    decreases |keys|
  {
    if |keys| > 1 {
      var s' := OnInput(Tick(s, keys[0].time).throttle, keys[0].time, keys[0].text);
      assert keys[1..][0] == keys[1];
      assert Burst(keys[1..]) by {
        forall i | 0 < i < |keys[1..]|
          ensures keys[1..][i].time < keys[1..][i - 1].time + QuietWindow
        {
          assert keys[1..][i] == keys[i + 1] && keys[1..][i - 1] == keys[i];
        }
      }
      BurstSearchesNothing(s', keys[1..]);
    }
  }

  /** Debounce collapsing: a burst of keystrokes followed by quiet until `t`,
      at least one window after the last keystroke, triggers exactly one
      search, for the text of the last keystroke. */
  lemma BurstSearchesLastText(s: Throttle, keys: seq<Keystroke>, t: int)
    requires keys != [] && Burst(keys) && QuietBefore(s, keys[0].time)
    requires t >= keys[|keys| - 1].time + QuietWindow
    ensures var r := Run(s, keys);
      Tick(r.throttle, t).search == Some(keys[|keys| - 1].text)
      && r.searches + [Tick(r.throttle, t).search.value] == [keys[|keys| - 1].text]
  {
    BurstSearchesNothing(s, keys);
  }

  // ---------------------------------------------------------------------------
  // Cart mutation

  /** `isItemInCart`: membership of the product id among the cart's lines. */
  function IsItemInCart(items: seq<DisplayLine>, productId: string): (b: bool)
    ensures b <==> ShowsId(items, productId)
  {
    productId in ProductIds(items)
  }

  /** `items.map(element => element.productId)`. */
  function ProductIds(items: seq<DisplayLine>): (ids: seq<string>)
    ensures |ids| == |items|
    ensures forall k :: 0 <= k < |items| ==> ids[k] == items[k].productId
  {
    seq(|items|, k requires 0 <= k < |items| => items[k].productId)
  }

  const LoginToAdd := Notice("Login to add an item to the Cart", Warning)
  const AlreadyInCart := Notice("Item already in cart. Use the cart sidebar to update quantity or remove item.", Warning)
  const UpsertUnreachable := "Could not fetch products. Check that the backend is running, reachabe and returns valid JSON."

  /** The body and bearer credential of `POST /cart`. */
  datatype UpsertRequest = UpsertRequest(token: string, productId: string, qty: int)

  /** The outcome of one `addToCart` call: the cart state afterwards, the
      request sent (if any) and the snackbar raised (if any). */
  datatype AddResult = AddResult(cart: CartState, request: Option<UpsertRequest>, notice: Option<Notice>)

  /** The `options = { preventDuplicate: false }` default parameter. */
  function OptionsOrDefault(options: Option<AddOptions>): (o: AddOptions)
    ensures options.None? ==> !o.preventDuplicate
    ensures options.Some? ==> o == options.value
  {
    match options
    case None => AddOptions(false)
    case Some(o) => o
  }

  /** `addToCart`. `current` is the page's cart state, `items` the cart the
      caller passed, `storage` the session the guard reads, `token` the
      credential the request carries, and `reply` what the request would come
      back with (consulted only when a request is sent). With a falsy `items`
      the duplicate check throws before anything happens. */
  function AddToCart(storage: Storage, current: CartState, token: string, items: CartState,
                     products: seq<Product>, productId: string, qty: int,
                     options: Option<AddOptions>, reply: Reply<seq<RawCartLine>>): (r: AddResult)
    // 1. The sign-in check comes first.
    ensures !SignedIn(storage) ==> r == AddResult(current, None, Some(LoginToAdd))
    // 2. Then the duplicate check, only when asked for.
    ensures SignedIn(storage) && OptionsOrDefault(options).preventDuplicate
            && items.Some? && IsItemInCart(items.value, productId)
            ==> r == AddResult(current, None, Some(AlreadyInCart))
    // 3. Otherwise exactly one upsert of the requested quantity.
    ensures r.request.Some? <==>
            SignedIn(storage)
            && (!OptionsOrDefault(options).preventDuplicate
                || (items.Some? && !IsItemInCart(items.value, productId)))
    ensures r.request.Some? ==> r.request.value == UpsertRequest(token, productId, qty)
    // Success: the new cart is the reconciled server cart.
    ensures r.request.Some? && reply.Ok? ==>
            r.cart == GenerateCartItems(Some(reply.body), products) && r.notice == None
    // Failure: the cart is unchanged and the backend's message, or a generic one, is shown.
    ensures r.request.Some? && reply.HttpError? ==> r.cart == current && r.notice == Some(Notice(reply.message, Error))
    ensures r.request.Some? && reply.NoResponse? ==> r.cart == current && r.notice == Some(Notice(UpsertUnreachable, Error))
    // A falsy `items` with the duplicate check asked for throws: nothing happens.
    ensures SignedIn(storage) && OptionsOrDefault(options).preventDuplicate && items.None?
            ==> r == AddResult(current, None, None)
    // Only a confirmed server cart ever replaces the state.
    ensures r.cart != current ==> r.request.Some? && reply.Ok?
  {
    var opts := OptionsOrDefault(options);
    if !SignedIn(storage) then
      AddResult(current, None, Some(LoginToAdd))
    else if opts.preventDuplicate && items.None? then
      AddResult(current, None, None)
    else if opts.preventDuplicate && IsItemInCart(items.value, productId) then
      AddResult(current, None, Some(AlreadyInCart))
    else
      var request := Some(UpsertRequest(token, productId, qty));
      match reply
      case Ok(body) => AddResult(GenerateCartItems(Some(body), products), request, None)
      case HttpError(_, message) => AddResult(current, request, Some(Notice(message, Error)))
      case NoResponse => AddResult(current, request, Some(Notice(UpsertUnreachable, Error)))
  }

  /** The "Add To Cart" button of a product card: quantity 1, duplicates
      prevented, against the page's own cart state. It never adds a second
      line for a product already in the cart, and otherwise asks for
      exactly one of it. */
  function AddToCartPressed(storage: Storage, current: CartState, product: Product,
                            products: seq<Product>, reply: Reply<seq<RawCartLine>>): (r: AddResult)
    ensures !SignedIn(storage) ==> r == AddResult(current, None, Some(LoginToAdd))
    ensures SignedIn(storage) && current.Some? && IsItemInCart(current.value, product.id)
            ==> r == AddResult(current, None, Some(AlreadyInCart))
    ensures r.request.Some? <==> SignedIn(storage) && current.Some? && !IsItemInCart(current.value, product.id)
    ensures r.request.Some? ==> r.request.value == UpsertRequest(storage["token"], product.id, 1)
    // Signed in with a falsy cart, `isItemInCart` throws: nothing happens.
    ensures SignedIn(storage) && current.None? ==> r == AddResult(current, None, None)
  {
    var token := if "token" in storage then storage["token"] else "";
    AddToCart(storage, current, token, current, products, product.id, 1, Some(AddOptions(true)), reply)
  }

  /** The + and - controls of a cart line are never stopped by the duplicate
      guard: signed in, they always send the neighbouring quantity. */
  lemma QuantityControlsBypassDuplicateGuard(storage: Storage, lines: seq<DisplayLine>, k: nat,
                                             products: seq<Product>, reply: Reply<seq<RawCartLine>>)
    requires SignedIn(storage) && k < |lines|
    ensures var minus := MinusPressed(lines[k].productId, lines[k].qty);
      AddToCart(storage, Some(lines), storage["token"], Some(lines), products, minus.productId, minus.qty,
                Some(minus.options), reply).request
        == Some(UpsertRequest(storage["token"], lines[k].productId, lines[k].qty - 1))
    ensures var plus := PlusPressed(lines[k].productId, lines[k].qty);
      AddToCart(storage, Some(lines), storage["token"], Some(lines), products, plus.productId, plus.qty,
                Some(plus.options), reply).request
        == Some(UpsertRequest(storage["token"], lines[k].productId, lines[k].qty + 1))
  {
  }

  /** A confirmed upsert leaves the displayed cart holding exactly the ids
      of the server cart that the catalogue knows; so an id the server
      dropped (a removal to quantity 0) has no line afterwards. */
  lemma UpsertShowsServerCart(storage: Storage, current: CartState, token: string, items: CartState,
                              products: seq<Product>, productId: string, qty: int,
                              options: Option<AddOptions>, body: seq<RawCartLine>, id: string)
    requires AddToCart(storage, current, token, items, products, productId, qty, options, Ok(body)).request.Some?
    ensures var r := AddToCart(storage, current, token, items, products, productId, qty, options, Ok(body));
      r.cart.Some? && (ShowsId(r.cart.value, id) <==> InCatalogue(products, id) && CartHasId(body, id))
  {
    ReconcileIdMembership(body, products, id);
  }

  // ---------------------------------------------------------------------------
  // Page mount

  const CartUnreachable := "Could not fetch cart details. Check that the backend is running, reachable and returns valid JSON."

  datatype MountResult = MountResult(catalogue: Catalogue, cart: CartState, cartRequested: bool, notice: Option<Notice>)

  /** The snackbar `fetchCart` raises on a failed `GET /cart`. */
  function CartFetchNotice(reply: Reply<seq<RawCartLine>>): (n: Option<Notice>)
    ensures n.Some? <==> !reply.Ok?
    ensures reply.HttpError? && reply.status == 400 ==> n == Some(Notice(reply.message, Error))
    ensures (reply.HttpError? && reply.status != 400) || reply.NoResponse?
            ==> n == Some(Notice(CartUnreachable, Error))
  {
    match reply
    case Ok(_) => None
    case HttpError(status, message) =>
      if status == 400 then Some(Notice(message, Error)) else Some(Notice(CartUnreachable, Error))
    case NoResponse => Some(Notice(CartUnreachable, Error))
  }

  /** The mount effect of the products page: list the catalogue, then, only
      for a signed-in session, fetch the cart and reconcile it against the
      listing just fetched. A failed cart fetch returns `null`, whose `.data`
      throws, leaving the cart state at its initial falsy value; so does a
      non-empty cart joined against a failed (`undefined`) listing. */
  function Mount(storage: Storage, listing: Reply<seq<Product>>, cartReply: Reply<seq<RawCartLine>>): (r: MountResult)
    ensures r.catalogue == (if listing.Ok? then Listing(listing.body) else Blank)
    ensures r.cartRequested <==> SignedIn(storage)
    ensures !SignedIn(storage) ==> r.cart == None && r.notice == None
    ensures r.cart.Some? ==> SignedIn(storage) && cartReply.Ok?
                             && r.cart.value == Reconcile(cartReply.body, Shown(r.catalogue))
    ensures SignedIn(storage) && cartReply.Ok? && listing.Ok? ==> r.cart.Some?
    // Against a failed listing only the empty cart survives the join; any
    // other cart throws and leaves the cart state falsy.
    ensures SignedIn(storage) && cartReply.Ok? && !listing.Ok?
            ==> r.cart == (if cartReply.body == [] then Some([]) else None)
    ensures r.notice.Some? <==> SignedIn(storage) && !cartReply.Ok?
    ensures r.notice.Some? ==> r.notice == CartFetchNotice(cartReply)
  {
    var catalogue := if listing.Ok? then Listing(listing.body) else Blank;
    if !SignedIn(storage) then MountResult(catalogue, None, false, None)
    else
      match cartReply
      case Ok(body) =>
        if catalogue.Blank? && |body| > 0 then MountResult(catalogue, None, true, None)
        else MountResult(catalogue, GenerateCartItems(Some(body), Shown(catalogue)), true, None)
      case _ => MountResult(catalogue, None, true, CartFetchNotice(cartReply))
  }

  // ---------------------------------------------------------------------------
  // The page as a whole

  /** The state of the products page: the listing fetched on mount, the
      catalogue currently shown (the listing or a search result) and the
      cart. */
  datatype Page = Page(listing: seq<Product>, catalogue: Catalogue, cart: CartState)

  /** A search reply arriving: only the shown catalogue changes. */
  function PageSearch(page: Page, endpoint: string, text: string, reply: Reply<seq<Product>>): (r: Page)
    ensures r.listing == page.listing && r.cart == page.cart
    ensures reply.Ok? ==> Shown(r.catalogue) == reply.body
  {
    page.(catalogue := PerformSearch(endpoint, page.catalogue, text, reply).catalogue)
  }

  /** "Add To Cart" as the page wires it: the reply is reconciled against the
      catalogue currently SHOWN, which after a search is the search result. */
  function PagePressAddAsWritten(storage: Storage, page: Page, product: Product,
                                 reply: Reply<seq<RawCartLine>>): (r: Page)
    ensures r.listing == page.listing && r.catalogue == page.catalogue
    ensures r.cart != page.cart ==> reply.Ok? && r.cart == Some(Reconcile(reply.body, Shown(page.catalogue)))
  {
    page.(cart := AddToCartPressed(storage, page.cart, product, Shown(page.catalogue), reply).cart)
  }

  /** After a search, a confirmed add hides the cart lines of products the
      search did not return, though they are in the listing and in the
      server's cart. */
  lemma SearchHidesCartLines()
    ensures
      var p1 := Product("Basketball", "Sports", 100, 5, "b.jpg", "P1");
      var p2 := Product("iPhone XR", "Phones", 100, 4, "i.jpg", "P2");
      var page := Page([p1, p2], Listing([p2]), Some([]));
      var server := [RawCartLine("P1", 1), RawCartLine("P2", 1)];
      var r := PagePressAddAsWritten(map["token" := "t"], page, p2, Ok(server));
      InCatalogue(page.listing, "P1") && CartHasId(server, "P1")
      && r.cart.Some? && !ShowsId(r.cart.value, "P1")
  {
    var p1 := Product("Basketball", "Sports", 100, 5, "b.jpg", "P1");
    var p2 := Product("iPhone XR", "Phones", 100, 4, "i.jpg", "P2");
    var server := [RawCartLine("P1", 1), RawCartLine("P2", 1)];
    assert InCatalogue([p1, p2], "P1") by { assert [p1, p2][0].id == "P1"; }
    assert CartHasId(server, "P1") by { assert server[0].productId == "P1"; }
    ReconcileIdMembership(server, [p2], "P1");
  }

  /** "Add To Cart" reconciling against the listing fetched on mount. */
  function PagePressAdd(storage: Storage, page: Page, product: Product, reply: Reply<seq<RawCartLine>>): (r: Page)
    ensures r.listing == page.listing && r.catalogue == page.catalogue
    ensures r.cart != page.cart ==> reply.Ok? && r.cart == Some(Reconcile(reply.body, page.listing))
  {
    page.(cart := AddToCartPressed(storage, page.cart, product, page.listing, reply).cart)
  }

  /** Whatever was searched, a confirmed add shows exactly the server's lines
      whose product is in the listing. */
  lemma PagePressAddShowsServerCart(storage: Storage, page: Page, product: Product,
                                    body: seq<RawCartLine>, id: string)
    requires AddToCartPressed(storage, page.cart, product, page.listing, Ok(body)).request.Some?
    ensures var r := PagePressAdd(storage, page, product, Ok(body));
      r.cart.Some? && (ShowsId(r.cart.value, id) <==> InCatalogue(page.listing, id) && CartHasId(body, id))
  {
    ReconcileIdMembership(body, page.listing, id);
  }
}

=== FILE: register.dfy ===
/** The registration form's validator: five ordered checks, the first
    failing one raising its warning, and on success the payload handed to the
    register call. */
module Register {
  import opened Common

  datatype RegisterForm = RegisterForm(username: string, password: string, confirmPassword: string)

  /** The form with `confirmPassword` deleted: what `register` receives. */
  datatype RegisterPayload = RegisterPayload(username: string, password: string)

  /** The minimum length of both username and password. */
  const MinLength := 6

  const UsernameRequired := "Username is a required field"
  const UsernameTooShort := "Username must be at least 6 characters"
  const PasswordRequired := "Password is a required field"
  const PasswordTooShort := "Password must be at least 6 characters"
  const PasswordsDiffer := "Passwords do not match"

  /** The checks of `validateInput`, in the order it makes them. */
  function RegistrationRules(f: RegisterForm): seq<Rule>
  {
    [ Rule(f.username != "", UsernameRequired),
      Rule(|f.username| >= MinLength, UsernameTooShort),
      Rule(f.password != "", PasswordRequired),
      Rule(|f.password| >= MinLength, PasswordTooShort),
      Rule(f.password == f.confirmPassword, PasswordsDiffer) ]
  }

  /** `validateInput` of the registration form. */
  function ValidateRegistration(f: RegisterForm): (r: Validation<RegisterPayload>)
    // Which warning, in closed form: each check applies only once the earlier ones pass.
    ensures r == Rejected(Notice(UsernameRequired, Warning)) <==> f.username == ""
    ensures r == Rejected(Notice(UsernameTooShort, Warning)) <==> 0 < |f.username| < MinLength
    ensures r == Rejected(Notice(PasswordRequired, Warning)) <==> |f.username| >= MinLength && f.password == ""
    ensures r == Rejected(Notice(PasswordTooShort, Warning))
            <==> |f.username| >= MinLength && 0 < |f.password| < MinLength
    ensures r == Rejected(Notice(PasswordsDiffer, Warning))
            <==> |f.username| >= MinLength && |f.password| >= MinLength && f.password != f.confirmPassword
    // Success, and what is sent.
    ensures r.Accepted? <==> |f.username| >= MinLength && |f.password| >= MinLength && f.password == f.confirmPassword
    ensures r.Accepted? ==> r.payload.username == f.username && r.payload.password == f.password
  {
    if f.username == "" then Rejected(Notice(UsernameRequired, Warning))
    else if |f.username| < MinLength then Rejected(Notice(UsernameTooShort, Warning))
    else if f.password == "" then Rejected(Notice(PasswordRequired, Warning))
    else if |f.password| < MinLength then Rejected(Notice(PasswordTooShort, Warning))
    else if f.password != f.confirmPassword then Rejected(Notice(PasswordsDiffer, Warning))
    else Accepted(RegisterPayload(f.username, f.password))
  }

  /** The validator is the first-failure reading of its rule list: it raises
      the message of the first rule that fails, and accepts when none does. */
  lemma RegistrationFollowsRules(f: RegisterForm)
    ensures match FirstViolation(RegistrationRules(f))
      case Some(m) => ValidateRegistration(f) == Rejected(Notice(m, Warning))
      case None => ValidateRegistration(f) == Accepted(RegisterPayload(f.username, f.password))
  {
    var rules := RegistrationRules(f);
    if f.username != "" && |f.username| >= MinLength && f.password != "" && |f.password| >= MinLength
       && f.password == f.confirmPassword {
      assert forall i :: 0 <= i < |rules| ==> rules[i].passes;
    } else {
      var k := if f.username == "" then 0
               else if |f.username| < MinLength then 1
               else if f.password == "" then 2
               else if |f.password| < MinLength then 3
               else 4;
      FirstViolationAt(rules, k);
    }
  }
}
